=== FILE: README.md ===
# dav1d.js decoder session — a Dafny model

dav1d.js runs the dav1d AV1 decoder as a WebAssembly module and wraps it in a small
JavaScript class, `Dav1d`. The host side of that wrapper is a sequential state machine
over integer handles that the module returns. This project models that host side and
proves properties of it:

- the context handle `ref`, set once by `_init` (a zero handle means failure);
- `_decodeFrame`, which does these steps in order:
  1. allocate an input buffer (`djs_alloc_obu`);
  2. copy the input bytes into linear memory;
  3. call `djs_decode_obu(ref, obuRef, len, format)`;
  4. read the four-word frame header (width, height, size, data offset);
  5. in copy mode, copy the payload out and call `djs_free_frame`; in unsafe mode, keep the
     frame handle as `lastFrameRef` and return a view over linear memory instead;
- the four public decode entry points and `unsafeCleanup`;
- the option guard of `create`.

The WebAssembly module is an oracle, `Ffi.Exports`. Each export is a total function of its
arguments and of the current linear memory, and returns a handle and the memory it leaves
behind. Every call the host makes goes into a call log (`Ffi.Call`) together with the
handle it returned. The free log (`Ffi.Frees`), the produced frames (`Ffi.Frames`) and the
requested formats (`Ffi.Formats`) are read off that log. A session (`Dav1d.Session`) is an
immutable record: `ref`, `lastFrameRef`, the linear memory and the call log. Each operation
is a pure function returning a `Step`: the value returned or the error thrown, plus the
next session.

Files:
- `bytes.dfy`: bytes, u32 values, and words in memory as a `Uint32Array` reads them on a
  little-endian host.
- `ffi.dfy`: the module oracle and the call log.
- `dav1d.dfy`: the session: `_init`, `_decodeFrame` in its stages, the public API and
  `unsafeCleanup`.
- `loader.dfy`: the `create` guard and the choice of module source.
- `protocol.dfy`: properties across calls, including a replay of any sequence of public API
  calls.

Three facts about the code shape the model:

- A frame handle of 0 means the decode failed (dav1d.js:94), so no frame header can sit
  at offset 0. `Protocol.CopyDecodeExample` puts the header (width 4, height 2, size 24,
  payload at 64) at handle 16.
- dav1d.js calls no export that frees the input buffer. A failed decode leaves it unfreed
  (dav1d.js:93-94), and the model logs no free of any kind on that path.
- The host passes any format straight to `djs_decode_obu`; what a format other than 0 or
  1 does is up to the module.

The typed-array operations throw a JavaScript `RangeError` when they would reach outside
memory. This applies to `HEAPU8.set` at line 90, to the `Uint32Array` header view at
line 95 (also when `frameRef` is not a multiple of 4), and to the `Uint8Array` payload
view at line 100. The model does not exclude these cases with preconditions: each one is
an explicit `RangeError` outcome. One consequence is proved: a frame whose header or
payload lies outside memory is thrown away with a RangeError and is never freed, in either
mode.

## Model

| member | source | states |
|---|---|---|
| Bytes.LoadU32 | dav1d.js:95-99 | a `Uint32Array` element read at a byte offset is the little-endian word there: its k-th least significant byte is the byte stored at offset + k |
| Bytes.EncodeU32 | dav1d.js:95-99 | the four little-endian bytes of a u32 read back, through `LoadU32`, as the same value |
| Bytes.LoadEncode | dav1d.js:95-99 | a word read from memory and re-encoded gives exactly the four bytes stored there (the other direction of the round trip) |
| Bytes.Write | dav1d.js:90 | copying the input into memory at an offset keeps the memory size, makes that window equal to the input, and leaves every other byte unchanged |
| Ffi.Frees | dav1d.js:108 | a handle is in the free log exactly when the log holds a `djs_free_frame` call on that handle |
| Dav1d.New | dav1d.js:69-75 | a constructed session has no context (`ref` 0), holds no frame (`lastFrameRef` 0), shows the instance's memory, and has freed, produced and requested nothing |
| Dav1d.Init | dav1d.js:76-82 | `_init` calls the static initializer and then `djs_init`, and stores the returned handle as `ref`; it fails with "error in djs_init" exactly when that handle is 0; it leaves `lastFrameRef` alone and frees nothing |
| Dav1d.StageInput | dav1d.js:87-90 | makes exactly one allocation call, asking for the input's length; fails with AllocFailed exactly when the handle is 0 (memory not written); fails with RangeError exactly when the buffer would end past memory; otherwise the buffer holds the input bytes and every other byte is as the allocation left it |
| Dav1d.CallDecode | dav1d.js:83-94 | once staging succeeds, calls decode with (ref, obuRef, len, format) on the staged memory and logs it; fails with DecodeFailed exactly when the frame handle is 0; a failed allocation throws "error in djs_alloc_obu" and a failed decode "error in djs_decode_obu"; on every path up to here nothing is freed and `lastFrameRef` is unchanged; a produced frame is logged as the newest frame |
| Dav1d.ReadFrameInfo | dav1d.js:95-100 | succeeds exactly when the header is 4-aligned and inside memory and the payload window fits; then the 16 header bytes are the little-endian encodings of width, height, size and data offset, in that order; otherwise RangeError |
| Dav1d.FinishFrame | dav1d.js:95-109 | copy mode returns `{width, height, data}` with `data` the `size` payload bytes read before the free, frees the frame exactly once and leaves `lastFrameRef` alone; unsafe mode returns only the payload window, frees nothing, and makes the frame the held one (the view shows the payload); a header or payload outside memory throws and the frame is neither freed nor kept |
| Dav1d.DecodeFrame | dav1d.js:83-110 | failures up to the decode call return that stage's error and state, otherwise the frame is finished as above; the result is a view exactly in unsafe mode; only a successful unsafe decode changes `lastFrameRef` (to a non-zero handle, the newest frame); only a successful copy decode frees, one handle; each successful decode produces exactly one frame and failed allocations or decodes produce none; that frame is the one freed (copy mode) or held (unsafe mode); the produced frames only grow |
| Dav1d.DecodeFrameAsYUV | dav1d.js:117-119 | a copy-mode decode: any result is an owned copy, the held frame is untouched, and the only decode format requested is YUV (0) |
| Dav1d.DecodeFrameAsBMP | dav1d.js:120-122 | a copy-mode decode: any result is an owned copy, the held frame is untouched, and the only decode format requested is BMP (1) |
| Dav1d.UnsafeDecodeFrameAsYUV | dav1d.js:130-132 | a view-mode decode to YUV (0): it never frees; on success it produces exactly one frame and that frame becomes the held one, overwriting any frame held before; on failure the held frame is kept |
| Dav1d.UnsafeDecodeFrameAsBMP | dav1d.js:133-135 | a view-mode decode to BMP (1): it never frees; on success it produces exactly one frame and that frame becomes the held one, overwriting any frame held before; on failure the held frame is kept |
| Dav1d.UnsafeCleanup | dav1d.js:136-142 | afterwards no frame is held; a held frame is freed exactly once (the only call made); with no frame held the session is returned unchanged |
| Loader.LoadRequest | dav1d.js:39-53 | rejects with the configuration error exactly when neither a non-empty `wasmURL` nor `wasmData` is given; given bytes are always used; the URL only when no bytes are given |
| Loader.Create | dav1d.js:51-61 | without a source, no load is started and `create` rejects with the configuration error; otherwise the load for the chosen source is started, and the result rejects with the init error exactly when `djs_init` returns 0; a created session has a non-zero context, holds no frame and has freed nothing |
| Protocol.Apply | dav1d.js:112-142 | the held-frame state machine: `unsafeCleanup` empties it; a successful unsafe decode fills it with the newest frame; every other call leaves it as it was; a successful decode returns a view exactly in unsafe mode |
| Protocol.AllocFailureStopsEarly | dav1d.js:88-89 | a zero input allocation throws with only the allocation logged: no memory write, no decode call, no free, and the held frame unchanged |
| Protocol.DecodeFailureFreesNothing | dav1d.js:93-94 | a zero frame handle throws after exactly the allocation and the decode call: no frame is freed, the input buffer is not freed, and the held frame is unchanged |
| Protocol.CleanupTwice | dav1d.js:136-142 | two `unsafeCleanup` calls in a row free at most one frame, and the second call changes nothing |
| Protocol.UnsafeTwiceOrphans | dav1d.js:101-104 | two unsafe decodes in a row free nothing; when both succeed, exactly two frames were produced, the first decode's frame and then the second's, none was freed, and only the second is held, so the first is orphaned |
| Protocol.HeaderRoundTrip | dav1d.js:95-100 | a header written as four little-endian words at an aligned offset, with its payload inside memory, is read back as exactly those four values |
| Protocol.CopyDecodeExample | dav1d.js:95-109 | a copy-mode YUV decode with header (4, 2, 24, 64) at frame handle 16 returns width 4, height 2 and the 24 bytes at offset 64, and frees handle 16 |
| Protocol.CleanupAccounting | dav1d.js:136-142 | `unsafeCleanup` keeps the account: the freed handles plus the held one stay within the produced handles, counting repeats |
| Protocol.DecodeAccounting | dav1d.js:83-110 | a decode keeps the account: a decode that returns frees or holds the frame it produced; a decode that throws adds no free (after a header or payload RangeError the produced frame is neither freed nor held); a newly held frame only replaces the previous one |
| Protocol.CopyDecodeFreesProduced | dav1d.js:83-110 | a copy-mode decode that throws no RangeError frees exactly the handles it produced, in order: none when it throws, the one frame when it returns |
| Protocol.ApplyAccounting | dav1d.js:101-142 | every public call keeps the account: every freed handle, and the held one, is matched (counting repeats) by a handle a decode returned; a copy-mode decode that throws no RangeError frees exactly the handles it produces, in the order produced |
| Protocol.DecodeFixedSize | dav1d.js:13 | with a module that never grows memory, a decode ends with memory of the size it started with |
| Protocol.ApplyFixedSize | dav1d.js:13 | when the module never resizes memory (growth aborts), no public call changes the memory size |
| Protocol.Replay | dav1d.js:112-142 | performing a sequence of public calls one after another, collecting each thrown error in order, keeps the context handle, only extends the produced frames, and yields at most one error per call |
| Protocol.ReplayAccounted | dav1d.js:112-142 | by induction over the calls: a replay keeps the account from start to end and, with a module that never grows memory, the memory size |
| Protocol.ReplayCopyOnly | dav1d.js:112-122 | a replay of copy-mode decodes keeps the held frame and, when none threw a RangeError, frees exactly the handles the module produced during it, in the order produced |
| Protocol.Run | dav1d.js:112-142 | the loop's session and error list are exactly those of `Replay` over the same calls; so the context handle is unchanged, the account holds at the end when it held at the start, the memory size is kept, and a copy-only sequence with no RangeError frees exactly the handles it produced, in order, and ends holding the frame it started with |

## Left out

- Fetching and instantiating the module (`fetchAndInstantiate`, dav1d.js:39-49) and the
  promise plumbing of `create` are network and WebAssembly I/O. The instance a load
  produces is a parameter of `Loader.Create`, and `create` returns a value instead of a
  promise.
- The import stubs of `getRuntime` (dav1d.js:1-37) are traps, aborts, a heap-size query
  and a memory-copy primitive (`emscripten_memcpy_js`, dav1d.js:11-12). The copy's effect
  is part of the memory the exports return. The one fact used is that
  `emscripten_resize_heap` aborts, so memory never grows (`Ffi.FixedSize`).
- The `console.log` calls (dav1d.js:77, 92) have no observable effect. `_initialize`
  (dav1d.js:78) is kept as a logged call. Its effect on memory is what `djs_init` then
  runs on.
- The codec is the foreign code behind the exports. It is modelled only as the oracle's
  returned handles and memory.
- The `ArrayBuffer.isView` normalisation (dav1d.js:84-86) is left out: the input is a byte
  sequence from the start. Only `Uint8Array` and `ArrayBuffer` inputs are modelled. For
  other views the code allocates `byteLength` bytes (dav1d.js:88), but `HEAPU8.set`
  (dav1d.js:90) writes one byte per element, modulo 256, for a `Uint16Array`, say, and
  writes nothing for a `DataView`, which has no `length`. Either way, `djs_decode_obu` is
  then given `byteLength` as the length of bytes that were never written.
- Loader.LoadRequest: only `undefined` or an empty string count as a missing `wasmURL`,
  and only `undefined` as missing `wasmData`. JavaScript's other falsy values for these
  options are not modelled.
- Handles and header words are unsigned 32-bit values. JavaScript sees a wasm `i32` result
  of 2^31 or more as a negative number, and a typed array given a negative offset throws a
  RangeError. A memory under 2 GiB never contains such an offset, so the model gives the
  same outcome. This argument assumes a memory under 2 GiB, and no member requires it: on
  a larger memory a handle of 2^31 or more would throw in JavaScript where the model reads
  the memory.
- A trap inside an export has no outcome in the model, because the oracle's exports are
  total functions. For example, `Aborted(OOM)` from `emscripten_resize_heap`
  (dav1d.js:13) during `djs_alloc_obu` or `djs_decode_obu` surfaces in JavaScript as a
  `WebAssembly.RuntimeError`; the model has no such result.
- The message of a `RangeError` depends on the JavaScript engine. The model uses a fixed
  string.
- Dav1d.StageInput, Dav1d.CallDecode, Dav1d.DecodeFrame and the four public decode
  functions require an input shorter than 2^32 bytes, the widest length the `u32` ABI can
  pass. For a longer input the code passes `byteLength` to `djs_alloc_obu`, where it is
  truncated modulo 2^32 (dav1d.js:88). Then either the allocation error is thrown, or
  `HEAPU8.set` at line 90 throws a RangeError, because the input cannot fit in a 32-bit
  memory.
- Dav1d.DecodeFrame: an unsafe view is an offset and a length into linear memory. The rule
  that a caller must not keep a view across another session call is the caller's
  obligation, and its validity over time is not modelled.
- The model assumes one session per page. The global `HEAPU8` and the cached `this.buffer`
  are JavaScript object identity. Because memory never grows, a single session's views
  always show its one memory. A second `create` runs a second constructor, which rebinds
  the module-level `HEAPU8` to the new instance's memory (dav1d.js:72). The import stubs
  `emscripten_get_heap_max` and `emscripten_memcpy_js` (dav1d.js:10-12) read that global.
  So from then on, the first instance's module measures and copies within the newest
  instance's memory, not its own. No member models two sessions sharing that global.
- Bytes.LoadU32: a `Uint32Array` reads words in the host's byte order. The model reads the
  header words as little-endian, so it describes dav1d.js:95-99 on a little-endian host
  only. On a big-endian host the code would read the four header words byte-swapped.
- `_init` does not stop a second call, which would overwrite `ref`. The model allows the
  same: `Dav1d.Init` applies to any session.

=== FILE: bytes.dfy ===
/** Bytes, unsigned 32-bit words and the WebAssembly linear memory as the host sees it
    through `Uint8Array` / `Uint32Array` views (little-endian words). */
module Bytes {

  newtype byte = b: int | 0 <= b < 0x100

  /** An unsigned 32-bit value: what a `Uint32Array` element or a wasm32 address holds. */
  type u32 = x: int | 0 <= x < 0x1_0000_0000

  /** The module's linear memory: one contiguous byte buffer. */
  type Memory = seq<byte>

  /** The four bytes of `v`, least significant first. */
  function EncodeU32(v: u32): (bs: seq<byte>)
    ensures |bs| == 4
    ensures LoadU32(bs, 0) == v
  {
    var v1 := v / 0x100;
    var v2 := v1 / 0x100;
    var b0, b1, b2, b3 := v % 0x100, v1 % 0x100, v2 % 0x100, v2 / 0x100;
    assert v == b0 + 0x100 * (b1 + 0x100 * (b2 + 0x100 * b3));
    [b0 as byte, b1 as byte, b2 as byte, b3 as byte]
  }

  /** The little-endian word stored at byte offset `off`: byte `k` of the value, counting
      from the least significant, is the byte stored at `off + k`. */
  function LoadU32(m: Memory, off: nat): (v: u32)
    requires off + 4 <= |m|
    ensures v % 0x100 == m[off] as int
    ensures v / 0x100 % 0x100 == m[off + 1] as int
    ensures v / 0x1_0000 % 0x100 == m[off + 2] as int
    ensures v / 0x100_0000 == m[off + 3] as int
  {
    var b0, b1, b2, b3 := m[off] as int, m[off + 1] as int, m[off + 2] as int, m[off + 3] as int;
    var v := b0 + 0x100 * (b1 + 0x100 * (b2 + 0x100 * b3));
    assert v % 0x100 == b0 && v / 0x100 == b1 + 0x100 * (b2 + 0x100 * b3);
    assert v / 0x1_0000 == (v / 0x100) / 0x100 == b2 + 0x100 * b3;
    assert v / 0x100_0000 == (v / 0x1_0000) / 0x100 == b3;
    v
  }

  /** Reading a word back and re-encoding it gives the four stored bytes. */
  lemma LoadEncode(m: Memory, off: nat)
    requires off + 4 <= |m|
    ensures EncodeU32(LoadU32(m, off)) == m[off..off + 4]
  {
    var v := LoadU32(m, off);
    var b0, b1, b2, b3 := m[off] as int, m[off + 1] as int, m[off + 2] as int, m[off + 3] as int;
    assert v == b0 + 0x100 * (b1 + 0x100 * (b2 + 0x100 * b3));
    assert v % 0x100 == b0 && v / 0x100 == b1 + 0x100 * (b2 + 0x100 * b3);
    var v1 := v / 0x100;
    assert v1 % 0x100 == b1 && v1 / 0x100 == b2 + 0x100 * b3;
    var v2 := v1 / 0x100;
    assert v2 % 0x100 == b2 && v2 / 0x100 == b3;
  }

  /** A word read depends only on the four bytes at its offset. */
  lemma LoadWindow(m: Memory, off: nat, w: seq<byte>, woff: nat)
    requires off + 4 <= |m| && woff + 4 <= |w|
    requires m[off] == w[woff] && m[off + 1] == w[woff + 1] && m[off + 2] == w[woff + 2] && m[off + 3] == w[woff + 3]
    ensures LoadU32(m, off) == LoadU32(w, woff)
  {
  }

  /** `m` with `data` copied in at offset `off`, as `Uint8Array.prototype.set(data, off)` does. */
  function Write(m: Memory, off: nat, data: seq<byte>): (r: Memory)
    requires off + |data| <= |m|
    ensures |r| == |m|
    ensures r[off..off + |data|] == data
    ensures forall i :: 0 <= i < |m| && !(off <= i < off + |data|) ==> r[i] == m[i]
  {
    m[..off] + data + m[off + |data|..]
  }
}

=== FILE: dav1d.dfy ===
/** The `Dav1d` decoder session: the host-side state machine over module handles.
    A session holds the decoder context handle `ref`, the handle of the frame last
    returned by an unsafe decode (`lastFrameRef`, 0 when none is held), the module's
    linear memory and the log of calls made into the module. Every operation is a pure
    step from a session to a result and the next session; the module is an `Exports`
    oracle passed in. */
module Dav1d {
  import opened Bytes
  import opened Ffi

  const FORMAT_YUV: u32 := 0
  const FORMAT_BMP: u32 := 1

  datatype Error =
    | ConfigurationError   // neither `wasmURL` nor `wasmData` given to `create`
    | InitFailed           // `djs_init` returned 0
    | AllocFailed          // `djs_alloc_obu` returned 0
    | DecodeFailed         // `djs_decode_obu` returned 0
    | RangeError           // a typed-array view or copy fell outside linear memory

  /** The message each thrown `Error` carries. */
  function Message(e: Error): string {
    match e
    case ConfigurationError => "Either wasmURL or wasmData shall be provided"
    case InitFailed => "error in djs_init"
    case AllocFailed => "error in djs_alloc_obu"
    case DecodeFailed => "error in djs_decode_obu"
    case RangeError => "RangeError"
  }

  datatype Result<T> = Ok(value: T) | Err(error: Error)

  datatype Option<T> = None | Some(value: T)

  datatype Session = Session(ref: u32, lastFrameRef: u32, memory: Memory, trace: seq<Call>)

  /** The outcome of one session operation: what it returns or throws, and the session after it. */
  datatype Step<T> = Step(result: Result<T>, session: Session)

  /** The fixed-layout frame header the module writes at a frame handle. */
  datatype FrameInfo = FrameInfo(width: u32, height: u32, size: u32, dataRef: u32)

  /** A decoded frame: an owned copy (`{width, height, data}`), or the unsafe
      `Uint8Array` window `[dataRef, dataRef + size)` over linear memory. */
  datatype Output =
    | Copied(width: u32, height: u32, data: seq<byte>)
    | View(dataRef: u32, size: u32)

  /** The bytes an unsafe view shows over memory `m`. */
  function ViewBytes(m: Memory, v: Output): (bs: seq<byte>)
    requires v.View? && v.dataRef + v.size <= |m|
    ensures |bs| == v.size
  {
    m[v.dataRef..v.dataRef + v.size]
  }

  /** A freshly constructed session: no context yet, no frame held, nothing called. */
  function New(memory: Memory): (s: Session)
    ensures s.ref == 0 && s.lastFrameRef == 0 && s.memory == memory
    ensures Frees(s.trace) == [] && Frames(s.trace) == [] && Formats(s.trace) == []
  {
    Session(0, 0, memory, [])
  }

  /** `_init`: run the static initializer, then store the handle `djs_init` returns as
      the context; a zero handle throws. */
  function Init(s: Session, x: Exports): (r: Step<()>)
    ensures var h := x.djsInit(x.initialize(s.memory)).handle;
      && r.session.ref == h
      && (r.result.Err? <==> h == 0)
      && r.session.trace == s.trace + [Initialize, DjsInit(h)]
    ensures r.result.Err? ==> r.result.error == InitFailed && Message(r.result.error) == "error in djs_init"
    ensures r.session.lastFrameRef == s.lastFrameRef
    ensures Frees(r.session.trace) == Frees(s.trace)
  {
    var reply := x.djsInit(x.initialize(s.memory));
    var calls := [Initialize, DjsInit(reply.handle)];
    LogAppend(s.trace, calls);
    assert Collect(calls, FreedBy) == [] by {
      assert calls[..1] == [Initialize];
      assert Collect([Initialize], FreedBy) == [];
    }
    var s' := s.(ref := reply.handle, memory := reply.memory, trace := s.trace + calls);
    if reply.handle == 0 then Step(Err(InitFailed), s') else Step(Ok(()), s')
  }

  /** The first part of `_decodeFrame`: allocate an input buffer of the input's length and
      copy the input into linear memory at the returned offset. */
  function StageInput(s: Session, obu: seq<byte>, x: Exports): (r: Step<u32>)
    requires |obu| < 0x1_0000_0000
    ensures var a := x.allocObu(|obu|, s.memory);
      && r.session.trace == s.trace + [AllocObu(|obu|, a.handle)]
      && (r.result == Err(AllocFailed) <==> a.handle == 0)
      && (r.result == Err(RangeError) <==> a.handle != 0 && a.handle + |obu| > |a.memory|)
      && (r.result.Err? ==> r.session.memory == a.memory)
      && (r.result.Ok? ==>
            && r.result.value == a.handle
            && |r.session.memory| == |a.memory|
            && r.session.memory[a.handle..a.handle + |obu|] == obu
            && forall i :: 0 <= i < |a.memory| && !(a.handle <= i < a.handle + |obu|) ==>
                 r.session.memory[i] == a.memory[i])
    ensures r.result.Err? ==> r.result.error == AllocFailed || r.result.error == RangeError
    ensures r.session.ref == s.ref && r.session.lastFrameRef == s.lastFrameRef
  {
    var len: u32 := |obu|;
    var a := x.allocObu(len, s.memory);
    var s' := s.(memory := a.memory, trace := s.trace + [AllocObu(len, a.handle)]);
    if a.handle == 0 then Step(Err(AllocFailed), s')
    else if a.handle + len > |a.memory| then Step(Err(RangeError), s')
    else Step(Ok(a.handle), s'.(memory := Write(a.memory, a.handle, obu)))
  }

  /** `_decodeFrame` up to the decode call: stage the input, then call
      `djs_decode_obu(ref, obuRef, len, format)` on the staged memory. A zero frame
      handle throws; nothing is freed on any of these paths, the input buffer included. */
  function CallDecode(s: Session, obu: seq<byte>, format: u32, x: Exports): (r: Step<u32>)
    requires |obu| < 0x1_0000_0000
    ensures var st := StageInput(s, obu, x);
      st.result.Err? ==> r == Step(Err(st.result.error), st.session)
    ensures var st := StageInput(s, obu, x);
      st.result.Ok? ==>
        var d := x.decodeObu(s.ref, st.result.value, |obu|, format, st.session.memory);
        && r.session.trace == st.session.trace + [DecodeObu(s.ref, st.result.value, |obu|, format, d.handle)]
        && r.session.memory == d.memory
        && (r.result.Err? <==> d.handle == 0)
        && (r.result.Ok? ==> r.result.value == d.handle)
    ensures r.result.Err? ==> r.result.error in {AllocFailed, RangeError, DecodeFailed}
    ensures r.result.Err? && r.result.error != RangeError ==>
      Message(r.result.error) == if StageInput(s, obu, x).result.Ok? then "error in djs_decode_obu" else "error in djs_alloc_obu"
    ensures r.result.Ok? ==> r.result.value != 0
    ensures r.session.ref == s.ref && r.session.lastFrameRef == s.lastFrameRef
    ensures Frees(r.session.trace) == Frees(s.trace)
    ensures Formats(r.session.trace) ==
      Formats(s.trace) + (if StageInput(s, obu, x).result.Ok? then [format] else [])
    ensures Frames(r.session.trace) == Frames(s.trace) + (if r.result.Ok? then [r.result.value] else [])
  {
    var st := StageInput(s, obu, x);
    LogAppend(s.trace, [AllocObu(|obu|, x.allocObu(|obu|, s.memory).handle)]);
    match st.result
    case Err(e) => Step(Err(e), st.session)
    case Ok(obuRef) =>
      var d := x.decodeObu(s.ref, obuRef, |obu|, format, st.session.memory);
      var call := DecodeObu(s.ref, obuRef, |obu|, format, d.handle);
      LogAppend(st.session.trace, [call]);
      var s' := st.session.(memory := d.memory, trace := st.session.trace + [call]);
      if d.handle == 0 then Step(Err(DecodeFailed), s') else Step(Ok(d.handle), s')
  }

  /** Read the frame header at `frameRef` through a `Uint32Array` of four words, then
      take the payload window `[dataRef, dataRef + size)`. Either typed array throws a
      RangeError when it would be misaligned or reach past the end of memory. */
  function ReadFrameInfo(m: Memory, frameRef: u32): (r: Result<FrameInfo>)
    ensures r.Ok? <==>
      && frameRef % 4 == 0
      && frameRef + 16 <= |m|
      && LoadU32(m, frameRef + 12) + LoadU32(m, frameRef + 8) <= |m|
    ensures r.Err? ==> r.error == RangeError
    ensures r.Ok? ==>
      && m[frameRef..frameRef + 16] ==
           EncodeU32(r.value.width) + EncodeU32(r.value.height) + EncodeU32(r.value.size) + EncodeU32(r.value.dataRef)
      && r.value.dataRef + r.value.size <= |m|
  {
    if frameRef % 4 != 0 || frameRef + 16 > |m| then Err(RangeError)
    else
      var info := FrameInfo(LoadU32(m, frameRef), LoadU32(m, frameRef + 4), LoadU32(m, frameRef + 8), LoadU32(m, frameRef + 12));
      if info.dataRef + info.size > |m| then Err(RangeError)
      else
        LoadEncode(m, frameRef);
        LoadEncode(m, frameRef + 4);
        LoadEncode(m, frameRef + 8);
        LoadEncode(m, frameRef + 12);
        assert m[frameRef..frameRef + 16] ==
          m[frameRef..frameRef + 4] + m[frameRef + 4..frameRef + 8] + m[frameRef + 8..frameRef + 12] + m[frameRef + 12..frameRef + 16];
        Ok(info)
  }

  /** The rest of `_decodeFrame` once the module produced frame `frameRef` (non-zero)
      in session `d`: read its header and payload, then either copy the payload out and
      free the frame, or keep the frame as the held one and hand back a view over memory.
      A frame whose header or payload lies outside memory throws a RangeError and is
      neither freed nor kept. */
  function FinishFrame(d: Session, frameRef: u32, unsafe: bool, x: Exports): (r: Step<Output>)
    requires frameRef != 0
    ensures ReadFrameInfo(d.memory, frameRef).Err? ==> r == Step(Err(RangeError), d)
    ensures ReadFrameInfo(d.memory, frameRef).Ok? ==>
      var info := ReadFrameInfo(d.memory, frameRef).value;
      var payload := d.memory[info.dataRef..info.dataRef + info.size];
      && r.result.Ok?
      && (unsafe ==>
            && r.result.value == View(info.dataRef, info.size)
            && r.session == d.(lastFrameRef := frameRef)
            && ViewBytes(r.session.memory, r.result.value) == payload)
      && (!unsafe ==>
            && r.result.value == Copied(info.width, info.height, payload)
            && |r.result.value.data| == info.size
            && r.session.lastFrameRef == d.lastFrameRef
            && r.session.trace == d.trace + [FreeFrame(frameRef)]
            && Frees(r.session.trace) == Frees(d.trace) + [frameRef]
            && r.session.memory == x.freeFrame(frameRef, d.memory))
    ensures r.session.ref == d.ref
    ensures r.session.trace == if r.result.Ok? && !unsafe then d.trace + [FreeFrame(frameRef)] else d.trace
    ensures r.session.lastFrameRef == if r.result.Ok? && unsafe then frameRef else d.lastFrameRef
    ensures Formats(r.session.trace) == Formats(d.trace)
    ensures Frames(r.session.trace) == Frames(d.trace)
  {
    match ReadFrameInfo(d.memory, frameRef)
    case Err(e) => Step(Err(e), d)
    case Ok(info) =>
      if unsafe then
        Step(Ok(View(info.dataRef, info.size)), d.(lastFrameRef := frameRef))
      else
        var data := d.memory[info.dataRef..info.dataRef + info.size];
        LogAppend(d.trace, [FreeFrame(frameRef)]);
        Step(Ok(Copied(info.width, info.height, data)),
             d.(memory := x.freeFrame(frameRef, d.memory), trace := d.trace + [FreeFrame(frameRef)]))
  }

  /** `_decodeFrame(obu, format, unsafe)`. */
  function DecodeFrame(s: Session, obu: seq<byte>, format: u32, unsafe: bool, x: Exports): (r: Step<Output>)
    requires |obu| < 0x1_0000_0000
    ensures var d := CallDecode(s, obu, format, x);
      && (d.result.Err? ==> r == Step(Err(d.result.error), d.session))
      && (d.result.Ok? ==> r == FinishFrame(d.session, d.result.value, unsafe, x))
    ensures r.session.ref == s.ref
    ensures r.result.Ok? ==> (r.result.value.View? <==> unsafe)
    ensures r.result.Ok? && unsafe ==>
      && r.result.value.dataRef + r.result.value.size <= |r.session.memory|
      && r.session.lastFrameRef != 0
      && |Frames(r.session.trace)| > 0
      && r.session.lastFrameRef == Frames(r.session.trace)[|Frames(r.session.trace)| - 1]
    ensures !(r.result.Ok? && unsafe) ==> r.session.lastFrameRef == s.lastFrameRef
    ensures !(r.result.Ok? && !unsafe) ==> Frees(r.session.trace) == Frees(s.trace)
    ensures r.result.Ok? && !unsafe ==> |Frees(r.session.trace)| == |Frees(s.trace)| + 1
    ensures Formats(r.session.trace) == Formats(s.trace) || Formats(r.session.trace) == Formats(s.trace) + [format]
    // each successful decode call produces one frame; failed allocations and decodes produce none
    ensures |Frames(s.trace)| <= |Frames(r.session.trace)| <= |Frames(s.trace)| + 1
    ensures Frames(s.trace) <= Frames(r.session.trace)
    ensures r.result.Ok? ==> |Frames(r.session.trace)| == |Frames(s.trace)| + 1
    ensures r.result.Err? && r.result.error != RangeError ==> Frames(r.session.trace) == Frames(s.trace)
    // the frame a successful decode produces is the one it frees (copy mode) or holds (unsafe mode)
    ensures r.result.Ok? ==>
      var f := Frames(r.session.trace)[|Frames(s.trace)|];
      && Frames(r.session.trace) == Frames(s.trace) + [f]
      && (!unsafe ==> Frees(r.session.trace) == Frees(s.trace) + [f])
      && (unsafe ==> r.session.lastFrameRef == f)
  {
    var d := CallDecode(s, obu, format, x);
    match d.result
    case Err(e) => Step(Err(e), d.session)
    case Ok(frameRef) =>
      FinishFrame(d.session, frameRef, unsafe, x)
  }

  /** `decodeFrameAsYUV`: copy-mode decode to YUV. */
  function DecodeFrameAsYUV(s: Session, obu: seq<byte>, x: Exports): (r: Step<Output>)
    requires |obu| < 0x1_0000_0000
    ensures r.result.Ok? ==> r.result.value.Copied?
    ensures r.session.lastFrameRef == s.lastFrameRef
    ensures Formats(r.session.trace) == Formats(s.trace) || Formats(r.session.trace) == Formats(s.trace) + [FORMAT_YUV]
  {
    DecodeFrame(s, obu, FORMAT_YUV, false, x)
  }

  /** `decodeFrameAsBMP`: copy-mode decode to BMP. */
  function DecodeFrameAsBMP(s: Session, obu: seq<byte>, x: Exports): (r: Step<Output>)
    requires |obu| < 0x1_0000_0000
    ensures r.result.Ok? ==> r.result.value.Copied?
    ensures r.session.lastFrameRef == s.lastFrameRef
    ensures Formats(r.session.trace) == Formats(s.trace) || Formats(r.session.trace) == Formats(s.trace) + [FORMAT_BMP]
  {
    DecodeFrame(s, obu, FORMAT_BMP, false, x)
  }

  /** `unsafeDecodeFrameAsYUV`: view-mode decode to YUV; the frame stays allocated and is held. */
  function UnsafeDecodeFrameAsYUV(s: Session, obu: seq<byte>, x: Exports): (r: Step<Output>)
    requires |obu| < 0x1_0000_0000
    // the frame just produced becomes the held one, whatever was held before
    ensures r.result.Ok? ==>
      && r.result.value.View?
      && r.session.lastFrameRef != 0
      && |Frames(r.session.trace)| > 0
      && r.session.lastFrameRef == Frames(r.session.trace)[|Frames(r.session.trace)| - 1]
      && Frames(r.session.trace) == Frames(s.trace) + [r.session.lastFrameRef]
    ensures r.result.Err? ==> r.session.lastFrameRef == s.lastFrameRef
    ensures Frees(r.session.trace) == Frees(s.trace)
    ensures Formats(r.session.trace) == Formats(s.trace) || Formats(r.session.trace) == Formats(s.trace) + [FORMAT_YUV]
  {
    DecodeFrame(s, obu, FORMAT_YUV, true, x)
  }

  /** `unsafeDecodeFrameAsBMP`: view-mode decode to BMP; the frame stays allocated and is held. */
  function UnsafeDecodeFrameAsBMP(s: Session, obu: seq<byte>, x: Exports): (r: Step<Output>)
    requires |obu| < 0x1_0000_0000
    // the frame just produced becomes the held one, whatever was held before
    ensures r.result.Ok? ==>
      && r.result.value.View?
      && r.session.lastFrameRef != 0
      && |Frames(r.session.trace)| > 0
      && r.session.lastFrameRef == Frames(r.session.trace)[|Frames(r.session.trace)| - 1]
      && Frames(r.session.trace) == Frames(s.trace) + [r.session.lastFrameRef]
    ensures r.result.Err? ==> r.session.lastFrameRef == s.lastFrameRef
    ensures Frees(r.session.trace) == Frees(s.trace)
    ensures Formats(r.session.trace) == Formats(s.trace) || Formats(r.session.trace) == Formats(s.trace) + [FORMAT_BMP]
  {
    DecodeFrame(s, obu, FORMAT_BMP, true, x)
  }

  /** `unsafeCleanup`: free the held frame, if any, and forget it. */
  function UnsafeCleanup(s: Session, x: Exports): (r: Session)
    ensures r.lastFrameRef == 0
    ensures r.ref == s.ref
    ensures s.lastFrameRef == 0 ==> r == s
    ensures s.lastFrameRef != 0 ==>
      && r.trace == s.trace + [FreeFrame(s.lastFrameRef)]
      && r.memory == x.freeFrame(s.lastFrameRef, s.memory)
    ensures Frees(r.trace) == Frees(s.trace) + (if s.lastFrameRef != 0 then [s.lastFrameRef] else [])
    ensures Frames(r.trace) == Frames(s.trace)
  {
    if s.lastFrameRef != 0 then
      LogAppend(s.trace, [FreeFrame(s.lastFrameRef)]);
      s.(memory := x.freeFrame(s.lastFrameRef, s.memory), trace := s.trace + [FreeFrame(s.lastFrameRef)], lastFrameRef := 0)
    else
      s
  }
}

=== FILE: ffi.dfy ===
/** The WebAssembly exports the host calls (`wasm.instance.exports`), seen as an oracle:
    each export is a total function of its arguments and of the current linear memory,
    returning a handle (0 means failure) and the memory it leaves behind. Every call the
    host makes is recorded in a log of `Call`s, together with the handle it returned. */
module Ffi {
  import opened Bytes

  /** What an export that returns a handle hands back. */
  datatype Reply = Reply(handle: u32, memory: Memory)

  datatype Exports = Exports(
    initialize: Memory -> Memory,                       // `_initialize`, the static initializer
    djsInit: Memory -> Reply,                           // `djs_init()`
    allocObu: (u32, Memory) -> Reply,                   // `djs_alloc_obu(len)`
    decodeObu: (u32, u32, u32, u32, Memory) -> Reply,   // `djs_decode_obu(ctx, obuRef, len, format)`
    freeFrame: (u32, Memory) -> Memory                  // `djs_free_frame(frameRef)`
  )

  /** One call into the module, with the handle it returned where it returns one. */
  datatype Call =
    | Initialize
    | DjsInit(context: u32)
    | AllocObu(len: u32, obu: u32)
    | DecodeObu(context: u32, obu: u32, len: u32, format: u32, frame: u32)
    | FreeFrame(frame: u32)

  /** The memory never changes size: growth calls `emscripten_resize_heap`, which aborts. */
  ghost predicate FixedSize(x: Exports) {
    && (forall m :: |x.initialize(m)| == |m|)
    && (forall m :: |x.djsInit(m).memory| == |m|)
    && (forall n, m :: |x.allocObu(n, m).memory| == |m|)
    && (forall c, o, n, f, m :: |x.decodeObu(c, o, n, f, m).memory| == |m|)
    && (forall h, m :: |x.freeFrame(h, m)| == |m|)
  }

  /** The items `f` picks out of each call of log `t`, in call order. */
  function Collect<T>(t: seq<Call>, f: Call -> seq<T>): seq<T>
  {
    if t == [] then [] else Collect(t[..|t| - 1], f) + f(t[|t| - 1])
  }

  lemma {:induction false} CollectAppend<T>(a: seq<Call>, b: seq<Call>, f: Call -> seq<T>)
    ensures Collect(a + b, f) == Collect(a, f) + Collect(b, f)
    decreases |b|
  {
    if b == [] {
      assert a + b == a;
    } else {
      var b' := b[..|b| - 1];
      assert (a + b)[..|a + b| - 1] == a + b';
      assert (a + b)[|a + b| - 1] == b[|b| - 1];
      CollectAppend(a, b', f);
    }
  }

  function FreedBy(c: Call): seq<u32> {
    if c.FreeFrame? then [c.frame] else []
  }

  function ProducedBy(c: Call): seq<u32> {
    if c.DecodeObu? && c.frame != 0 then [c.frame] else []
  }

  function FormatOf(c: Call): seq<u32> {
    if c.DecodeObu? then [c.format] else []
  }

  /** The free log: the handles passed to `djs_free_frame`, in call order. */
  function Frees(t: seq<Call>): (r: seq<u32>)
    ensures forall h :: h in r <==> FreeFrame(h) in t
  {
    FreesMembers(t);
    Collect(t, FreedBy)
  }

  lemma {:induction false} FreesMembers(t: seq<Call>)
    ensures forall h :: h in Collect(t, FreedBy) <==> FreeFrame(h) in t
    decreases |t|
  {
    if t != [] {
      var init := t[..|t| - 1];
      assert t == init + [t[|t| - 1]];
      FreesMembers(init);
    }
  }

  /** The frame handles `djs_decode_obu` produced (its non-zero results), in call order. */
  function Frames(t: seq<Call>): seq<u32>
  {
    Collect(t, ProducedBy)
  }

  /** The formats requested of `djs_decode_obu`, in call order. */
  function Formats(t: seq<Call>): seq<u32>
  {
    Collect(t, FormatOf)
  }

  lemma LogAppend(a: seq<Call>, b: seq<Call>)
    ensures Frees(a + b) == Frees(a) + Frees(b)
    ensures Frames(a + b) == Frames(a) + Frames(b)
    ensures Formats(a + b) == Formats(a) + Formats(b)
  {
    CollectAppend(a, b, FreedBy);
    CollectAppend(a, b, ProducedBy);
    CollectAppend(a, b, FormatOf);
  }
}

=== FILE: loader.dfy ===
/** `create(opts)`: the option guard, the choice of where the module comes from, and the
    construction and initialisation of the session. Fetching and instantiating the module
    are I/O and stay outside the model: the instance they produce (its exports and its
    initial memory) is a parameter. */
module Loader {
  import opened Bytes
  import opened Ffi
  import opened Dav1d

  /** The options `create` reads. */
  datatype Options = Options(wasmURL: Option<string>, wasmData: Option<seq<byte>>)

  /** Where `fetchAndInstantiate` takes the module from. */
  datatype Source = FromData(data: seq<byte>) | FromUrl(url: string)

  /** JavaScript truthiness of `opts.wasmURL`: absent or the empty string is falsy. */
  predicate HasUrl(opts: Options) {
    opts.wasmURL.Some? && opts.wasmURL.value != ""
  }

  /** JavaScript truthiness of `opts.wasmData`: module bytes are an object, truthy even when empty. */
  predicate HasData(opts: Options) {
    opts.wasmData.Some?
  }

  /** The guard of `create` and the source `fetchAndInstantiate` then uses: the bytes when
      given, the URL otherwise. */
  function LoadRequest(opts: Options): (r: Result<Source>)
    ensures r.Err? <==> !HasUrl(opts) && !HasData(opts)
    ensures r.Err? ==> r.error == ConfigurationError
    ensures r.Ok? && r.value.FromData? ==> opts.wasmData == Some(r.value.data)
    ensures r.Ok? && r.value.FromUrl? ==> !HasData(opts) && opts.wasmURL == Some(r.value.url) && r.value.url != ""
    ensures HasData(opts) ==> r.Ok? && r.value.FromData?
  {
    if !HasUrl(opts) && !HasData(opts) then Err(ConfigurationError)
    else if opts.wasmData.Some? then Ok(FromData(opts.wasmData.value))
    else Ok(FromUrl(opts.wasmURL.value))
  }

  /** What `create` did: the load it started, if any, and how its promise settled. */
  datatype Created = Created(request: Option<Source>, result: Result<Session>)

  /** `create(opts)`, where `x` and `memory` are the instance the load produced. */
  function Create(opts: Options, x: Exports, memory: Memory): (r: Created)
    // without a source, `create` rejects before starting any fetch or instantiation
    ensures !HasUrl(opts) && !HasData(opts) ==> r == Created(None, Err(ConfigurationError))
    ensures HasUrl(opts) || HasData(opts) ==>
      && r.request.Some?
      && LoadRequest(opts) == Ok(r.request.value)
      && (r.result == Err(InitFailed) <==> x.djsInit(x.initialize(memory)).handle == 0)
    ensures r.result.Err? ==> r.result.error == ConfigurationError || r.result.error == InitFailed
    // a created session holds a context, holds no frame and has freed nothing
    ensures r.result.Ok? ==>
      var d := r.result.value;
      && d.ref == x.djsInit(x.initialize(memory)).handle
      && d.ref != 0
      && d.lastFrameRef == 0
      && d.trace == [Initialize, DjsInit(d.ref)]
      && Frees(d.trace) == []
  {
    match LoadRequest(opts)
    case Err(e) => Created(None, Err(e))
    case Ok(source) =>
      var init := Init(New(memory), x);
      assert Frees(init.session.trace) == Frees([]);
      if init.result.Err? then Created(Some(source), Err(init.result.error))
      else Created(Some(source), Ok(init.session))
  }
}

=== FILE: protocol.dfy ===
/** Properties of a session across several calls of its public API: the held-frame
    state machine, idempotent cleanup, the orphaned frame of a repeated unsafe decode,
    the frame header layout, and the balance between frames produced and frames freed. */
module Protocol {
  import opened Bytes
  import opened Ffi
  import opened Dav1d

  /** One call of the public API of a session. */
  datatype Op =
    | DecodeYUV(obu: seq<byte>)
    | DecodeBMP(obu: seq<byte>)
    | UnsafeDecodeYUV(obu: seq<byte>)
    | UnsafeDecodeBMP(obu: seq<byte>)
    | Cleanup

  predicate Unsafe(op: Op) {
    op.UnsafeDecodeYUV? || op.UnsafeDecodeBMP?
  }

  predicate Fits(op: Op) {
    op.Cleanup? || |op.obu| < 0x1_0000_0000
  }

  /** The frame the session holds, as a multiset of at most one handle. */
  function Held(s: Session): multiset<u32> {
    if s.lastFrameRef != 0 then multiset{s.lastFrameRef} else multiset{}
  }

  /** The session never frees or holds a frame the module did not produce: the handles it
      freed, together with the held one, are matched (counting repeats) by handles that
      successful decode calls returned. */
  ghost predicate Accounted(s: Session) {
    multiset(Frees(s.trace)) + Held(s) <= multiset(Frames(s.trace))
  }

  /** Perform `op` on `s`; `unsafeCleanup` returns nothing, shown as `Ok(None)`. */
  function Apply(s: Session, op: Op, x: Exports): (r: Step<Option<Output>>)
    requires Fits(op)
    // the held-frame state machine: cleanup empties it, a successful unsafe decode fills it
    // (over any frame held before), nothing else touches it
    ensures op.Cleanup? ==> r.session.lastFrameRef == 0 && r.result == Ok(None)
    ensures Unsafe(op) && r.result.Ok? ==>
      && r.session.lastFrameRef != 0
      && |Frames(r.session.trace)| > 0
      && r.session.lastFrameRef == Frames(r.session.trace)[|Frames(r.session.trace)| - 1]
    ensures !op.Cleanup? && !(Unsafe(op) && r.result.Ok?) ==> r.session.lastFrameRef == s.lastFrameRef
    ensures r.result.Ok? && !op.Cleanup? ==> r.result.value.Some? && (r.result.value.value.View? <==> Unsafe(op))
    ensures r.session.ref == s.ref
    ensures Frames(s.trace) <= Frames(r.session.trace)
  {
    match op
    case Cleanup => Step(Ok(None), UnsafeCleanup(s, x))
    case DecodeYUV(obu) => Wrap(DecodeFrameAsYUV(s, obu, x))
    case DecodeBMP(obu) => Wrap(DecodeFrameAsBMP(s, obu, x))
    case UnsafeDecodeYUV(obu) => Wrap(UnsafeDecodeFrameAsYUV(s, obu, x))
    case UnsafeDecodeBMP(obu) => Wrap(UnsafeDecodeFrameAsBMP(s, obu, x))
  }

  function Wrap(st: Step<Output>): Step<Option<Output>> {
    Step(if st.result.Ok? then Ok(Some(st.result.value)) else Err(st.result.error), st.session)
  }

  /** When `djs_alloc_obu` returns 0 the decode throws right away: the allocation is the
      only call made, nothing is written to memory, nothing is freed and the held frame
      stays as it was. */
  lemma AllocFailureStopsEarly(s: Session, obu: seq<byte>, format: u32, unsafe: bool, x: Exports)
    requires |obu| < 0x1_0000_0000
    requires x.allocObu(|obu|, s.memory).handle == 0
    ensures var r := DecodeFrame(s, obu, format, unsafe, x);
      && r.result == Err(AllocFailed)
      && r.session.trace == s.trace + [AllocObu(|obu|, 0)]
      && r.session.memory == x.allocObu(|obu|, s.memory).memory
      && r.session.lastFrameRef == s.lastFrameRef
      && r.session.ref == s.ref
  {
  }

  /** When `djs_decode_obu` returns 0 the decode throws after exactly the allocation and
      the decode call: no frame is freed, the input buffer is not freed either, and the
      held frame stays as it was. */
  lemma DecodeFailureFreesNothing(s: Session, obu: seq<byte>, format: u32, unsafe: bool, x: Exports)
    requires |obu| < 0x1_0000_0000
    requires var a := x.allocObu(|obu|, s.memory);
      && a.handle != 0
      && a.handle + |obu| <= |a.memory|
      && x.decodeObu(s.ref, a.handle, |obu|, format, Write(a.memory, a.handle, obu)).handle == 0
    ensures var r := DecodeFrame(s, obu, format, unsafe, x);
      var obuRef := x.allocObu(|obu|, s.memory).handle;
      && r.result == Err(DecodeFailed)
      && r.session.trace == s.trace + [AllocObu(|obu|, obuRef), DecodeObu(s.ref, obuRef, |obu|, format, 0)]
      && Frees(r.session.trace) == Frees(s.trace)
      && r.session.lastFrameRef == s.lastFrameRef
  {
  }

  /** Calling `unsafeCleanup` twice in a row frees at most one frame, and the second
      call changes nothing. */
  lemma CleanupTwice(s: Session, x: Exports)
    ensures var once := UnsafeCleanup(s, x);
      && UnsafeCleanup(once, x) == once
      && Frees(UnsafeCleanup(once, x).trace) == Frees(s.trace) + (if s.lastFrameRef != 0 then [s.lastFrameRef] else [])
  {
  }

  /** Two unsafe decodes in a row without `unsafeCleanup` free nothing: both produce a frame,
      neither frame is freed, and only the second is held, so the first is left allocated
      in the module. */
  lemma UnsafeTwiceOrphans(s: Session, a: seq<byte>, b: seq<byte>, x: Exports)
    requires |a| < 0x1_0000_0000 && |b| < 0x1_0000_0000
    ensures var first := UnsafeDecodeFrameAsYUV(s, a, x);
      var second := UnsafeDecodeFrameAsYUV(first.session, b, x);
      && Frees(second.session.trace) == Frees(s.trace)
      && (first.result.Ok? && second.result.Ok? ==>
            && Frames(second.session.trace) == Frames(s.trace) + [first.session.lastFrameRef, second.session.lastFrameRef]
            && second.session.lastFrameRef == Frames(second.session.trace)[|Frames(second.session.trace)| - 1])
  {
  }

  /** A header laid out as four little-endian words at an aligned in-bounds offset, with its
      payload inside memory, is read back as exactly those four values. */
  lemma HeaderRoundTrip(m: Memory, frameRef: u32, info: FrameInfo)
    requires frameRef % 4 == 0 && frameRef + 16 <= |m|
    requires info.dataRef + info.size <= |m|
    requires m[frameRef..frameRef + 16] ==
      EncodeU32(info.width) + EncodeU32(info.height) + EncodeU32(info.size) + EncodeU32(info.dataRef)
    ensures ReadFrameInfo(m, frameRef) == Ok(info)
  {
    var header := m[frameRef..frameRef + 16];
    var a, b, c, d := EncodeU32(info.width), EncodeU32(info.height), EncodeU32(info.size), EncodeU32(info.dataRef);
    assert header[0..4] == a && header[4..8] == b && header[8..12] == c && header[12..16] == d;
    LoadWindow(m, frameRef, header, 0);
    LoadWindow(header, 0, a, 0);
    LoadWindow(m, frameRef + 4, header, 4);
    LoadWindow(header, 4, b, 0);
    LoadWindow(m, frameRef + 8, header, 8);
    LoadWindow(header, 8, c, 0);
    LoadWindow(m, frameRef + 12, header, 12);
    LoadWindow(header, 12, d, 0);
  }

  /** A copy-mode YUV decode whose frame header at handle 16 reads width 4, height 2,
      size 24 and payload offset 64 returns those dimensions and the 24 payload bytes. */
  lemma CopyDecodeExample(s: Session, obu: seq<byte>, x: Exports, payload: seq<byte>)
    requires |obu| < 0x1_0000_0000 && |payload| == 24
    requires var d := CallDecode(s, obu, FORMAT_YUV, x);
      && d.result == Ok(16)
      && |d.session.memory| >= 88
      && d.session.memory[16..32] == EncodeU32(4) + EncodeU32(2) + EncodeU32(24) + EncodeU32(64)
      && d.session.memory[64..88] == payload
    ensures var r := DecodeFrameAsYUV(s, obu, x);
      && r.result == Ok(Copied(4, 2, payload))
      && Frees(r.session.trace) == Frees(s.trace) + [16]
  {
    var d := CallDecode(s, obu, FORMAT_YUV, x);
    HeaderRoundTrip(d.session.memory, 16, FrameInfo(4, 2, 24, 64));
  }

  /** `unsafeCleanup` keeps the account: the held handle moves to the free log. */
  lemma CleanupAccounting(s: Session, x: Exports)
    requires Accounted(s)
    ensures Accounted(UnsafeCleanup(s, x))
  {
  }

  /** A decode keeps the account: a produced frame is either freed or held, a failed decode
      frees nothing, and a newly held frame only replaces the one held before. */
  lemma DecodeAccounting(s: Session, obu: seq<byte>, format: u32, unsafe: bool, x: Exports)
    requires |obu| < 0x1_0000_0000
    requires Accounted(s)
    ensures Accounted(DecodeFrame(s, obu, format, unsafe, x).session)
  {
  }

  /** A copy-mode decode that throws no RangeError frees exactly the frames it produces:
      none when it throws, the one it produced when it returns. */
  lemma CopyDecodeFreesProduced(s: Session, obu: seq<byte>, format: u32, x: Exports)
    requires |obu| < 0x1_0000_0000
    ensures var r := DecodeFrame(s, obu, format, false, x);
      r.result != Err(RangeError) ==>
        && |Frames(s.trace)| <= |Frames(r.session.trace)|
        && Frees(r.session.trace) == Frees(s.trace) + Frames(r.session.trace)[|Frames(s.trace)|..]
  {
  }

  /** One operation keeps the account balanced; a copy-mode decode that does not throw a
      RangeError frees exactly the frames it produces, in the order produced. */
  lemma ApplyAccounting(s: Session, op: Op, x: Exports)
    requires Fits(op)
    ensures var r := Apply(s, op, x);
      && (Accounted(s) ==> Accounted(r.session))
      && (!op.Cleanup? && !Unsafe(op) && r.result != Err(RangeError) ==>
            && |Frames(s.trace)| <= |Frames(r.session.trace)|
            && Frees(r.session.trace) == Frees(s.trace) + Frames(r.session.trace)[|Frames(s.trace)|..])
  {
    match op
    case Cleanup =>
      if Accounted(s) { CleanupAccounting(s, x); }
    case DecodeYUV(obu) =>
      CopyDecodeFreesProduced(s, obu, FORMAT_YUV, x);
      if Accounted(s) { DecodeAccounting(s, obu, FORMAT_YUV, false, x); }
    case DecodeBMP(obu) =>
      CopyDecodeFreesProduced(s, obu, FORMAT_BMP, x);
      if Accounted(s) { DecodeAccounting(s, obu, FORMAT_BMP, false, x); }
    case UnsafeDecodeYUV(obu) =>
      if Accounted(s) { DecodeAccounting(s, obu, FORMAT_YUV, true, x); }
    case UnsafeDecodeBMP(obu) =>
      if Accounted(s) { DecodeAccounting(s, obu, FORMAT_BMP, true, x); }
  }

  /** A decode keeps the memory size when the module never grows memory. */
  lemma DecodeFixedSize(s: Session, obu: seq<byte>, format: u32, unsafe: bool, x: Exports)
    requires |obu| < 0x1_0000_0000 && FixedSize(x)
    ensures |DecodeFrame(s, obu, format, unsafe, x).session.memory| == |s.memory|
  {
    var st := StageInput(s, obu, x);
    if st.result.Ok? {
      assert |x.decodeObu(s.ref, st.result.value, |obu|, format, st.session.memory).memory| == |s.memory|;
    }
  }

  /** The memory keeps its size across every operation. */
  lemma ApplyFixedSize(s: Session, op: Op, x: Exports)
    requires Fits(op) && FixedSize(x)
    ensures |Apply(s, op, x).session.memory| == |s.memory|
  {
    match op
    case Cleanup =>
    case DecodeYUV(obu) => DecodeFixedSize(s, obu, FORMAT_YUV, false, x);
    case DecodeBMP(obu) => DecodeFixedSize(s, obu, FORMAT_BMP, false, x);
    case UnsafeDecodeYUV(obu) => DecodeFixedSize(s, obu, FORMAT_YUV, true, x);
    case UnsafeDecodeBMP(obu) => DecodeFixedSize(s, obu, FORMAT_BMP, true, x);
  }

  /** The session after a sequence of calls, and what the calls threw, in order. */
  datatype Replayed = Replayed(session: Session, errors: seq<Error>)

  /** The reference replay: perform `ops` on `s0` one after another, collecting the error of
      every call that throws. */
  function Replay(s0: Session, ops: seq<Op>, x: Exports): (r: Replayed)
    requires forall i :: 0 <= i < |ops| ==> Fits(ops[i])
    ensures |r.errors| <= |ops|
    ensures r.session.ref == s0.ref
    ensures Frames(s0.trace) <= Frames(r.session.trace)
    decreases |ops|
  {
    if ops == [] then Replayed(s0, [])
    else
      var before := Replay(s0, ops[..|ops| - 1], x);
      var st := Apply(before.session, ops[|ops| - 1], x);
      Replayed(st.session, before.errors + if st.result.Err? then [st.result.error] else [])
  }

  /** Every call of a replay keeps the account balanced and, with a module that never
      grows memory, the memory size. */
  lemma {:induction false} ReplayAccounted(s0: Session, ops: seq<Op>, x: Exports)
    requires forall i :: 0 <= i < |ops| ==> Fits(ops[i])
    ensures var r := Replay(s0, ops, x);
      && (Accounted(s0) ==> Accounted(r.session))
      && (FixedSize(x) ==> |r.session.memory| == |s0.memory|)
    decreases |ops|
  {
    if ops != [] {
      var before := Replay(s0, ops[..|ops| - 1], x);
      ReplayAccounted(s0, ops[..|ops| - 1], x);
      ApplyAccounting(before.session, ops[|ops| - 1], x);
      if FixedSize(x) {
        ApplyFixedSize(before.session, ops[|ops| - 1], x);
      }
    }
  }

  /** A replay of copy-mode decodes only keeps the held frame and, when no frame lay outside
      memory, frees exactly the frames the module produced, in the order produced. */
  lemma {:induction false} ReplayCopyOnly(s0: Session, ops: seq<Op>, x: Exports)
    requires forall i :: 0 <= i < |ops| ==> Fits(ops[i]) && !ops[i].Cleanup? && !Unsafe(ops[i])
    ensures var r := Replay(s0, ops, x);
      && r.session.lastFrameRef == s0.lastFrameRef
      && (RangeError !in r.errors ==>
            && |Frames(s0.trace)| <= |Frames(r.session.trace)|
            && Frees(r.session.trace) == Frees(s0.trace) + Frames(r.session.trace)[|Frames(s0.trace)|..])
    decreases |ops|
  {
    if ops != [] {
      var before := Replay(s0, ops[..|ops| - 1], x);
      var r := Replay(s0, ops, x);
      ReplayCopyOnly(s0, ops[..|ops| - 1], x);
      ApplyAccounting(before.session, ops[|ops| - 1], x);
      if RangeError !in r.errors {
        FreedInOrder(Frees(s0.trace), Frees(before.session.trace), Frees(r.session.trace),
                     Frames(s0.trace), Frames(before.session.trace), Frames(r.session.trace));
      }
    }
  }

  /** Two steps that each free exactly the frames they produce, together free exactly the
      frames produced over both. */
  lemma FreedInOrder(f0: seq<u32>, f1: seq<u32>, f2: seq<u32>, p0: seq<u32>, p1: seq<u32>, p2: seq<u32>)
    requires |p0| <= |p1| && p1 <= p2
    requires f1 == f0 + p1[|p0|..] && f2 == f1 + p2[|p1|..]
    ensures |p0| <= |p2| && f2 == f0 + p2[|p0|..]
  {
    assert p2[|p0|..] == p1[|p0|..] + p2[|p1|..];
  }

  /** Replaying one more call is that call performed on the replay so far. */
  lemma ReplaySnoc(s0: Session, ops: seq<Op>, k: nat, x: Exports)
    requires forall i :: 0 <= i < |ops| ==> Fits(ops[i])
    requires k < |ops|
    ensures var before := Replay(s0, ops[..k], x);
      var st := Apply(before.session, ops[k], x);
      Replay(s0, ops[..k + 1], x) == Replayed(st.session, before.errors + if st.result.Err? then [st.result.error] else [])
  {
    assert ops[..k + 1][..k] == ops[..k];
  }

  /** Replays `ops` on `s0` in order, collecting what each decode throws. */
  method Run(s0: Session, ops: seq<Op>, x: Exports) returns (s: Session, errors: seq<Error>)
    requires forall i :: 0 <= i < |ops| ==> Fits(ops[i])
    // the loop computes exactly the replay of `ops`
    ensures s == Replay(s0, ops, x).session && errors == Replay(s0, ops, x).errors
    ensures |errors| <= |ops|
    ensures s.ref == s0.ref
    ensures Accounted(s0) ==> Accounted(s)
    ensures FixedSize(x) ==> |s.memory| == |s0.memory|
    // a session used only in copy mode, and never reading a frame outside memory, frees
    // every frame the module produces
    ensures (forall i :: 0 <= i < |ops| ==> !ops[i].Cleanup? && !Unsafe(ops[i])) && RangeError !in errors ==>
      && |Frames(s0.trace)| <= |Frames(s.trace)|
      && Frees(s.trace) == Frees(s0.trace) + Frames(s.trace)[|Frames(s0.trace)|..]
    // ... and so ends holding whatever frame it held at the start
    ensures (forall i :: 0 <= i < |ops| ==> !ops[i].Cleanup? && !Unsafe(ops[i])) ==> s.lastFrameRef == s0.lastFrameRef
  {
    s, errors := s0, [];
    var k := 0;
    while k < |ops|
      invariant 0 <= k <= |ops|
      invariant s == Replay(s0, ops[..k], x).session && errors == Replay(s0, ops[..k], x).errors
    {
      var r := Apply(s, ops[k], x);
      ReplaySnoc(s0, ops, k, x);
      s := r.session;
      if r.result.Err? {
        errors := errors + [r.result.error];
      }
      k := k + 1;
    }
    assert ops[..|ops|] == ops;
    ReplayAccounted(s0, ops, x);
    if forall i :: 0 <= i < |ops| ==> !ops[i].Cleanup? && !Unsafe(ops[i]) {
      ReplayCopyOnly(s0, ops, x);
    }
  }
}
